=== FILE: README.md ===
# Maze generation and solving, modelled in Dafny

This project models the `Maze` class of `maze.py`. The class holds two
boolean grids on a doubled "brick" layout:

- logical cell `(r, c)` lives at slot `(2r+1, 2c+1)`;
- the slot between two adjacent cells is the midpoint of their two cell slots.

`maze` is true where a slot is walled. `solvedPath` is true where a slot lies
on the solution path.

The model has three modules:

- `grid.dfy` (module `Grid`): the geometry.
  - Cells and slots, the derived dimensions and the neighbour relation.
  - The wall slot between two cells, the set of all cells and its size.
  - A count of the cells outside a set, used as the search's termination measure.
  - Connectivity of the grid under neighbour steps.
- `spanning.dfy` (module `Spanning`): spanning trees over the cells.
  - A tree is described by parent pointers and depths.
  - If the walls of a spanning tree are open, every cell reaches every other
    through open walls.
  - The invariant of the depth-first carving walk, and the lemmas for its
    forward, backward and final steps.
- `maze.dfy` (module `Mazes`): the class `Maze`.
  - Its constructor, `GetNeighbors`, the carving walk `Generate` (split into
    `Step` and `Advance`) and the recursive search `Solve` (its loop body is `Explore`).
  - The default-argument entry point `SolveFrom`.
  - `GenerateAndSolve`, which carves a maze and then solves it.

What is proved:

- **Generation.** `Generate` terminates and opens every cell slot. It opens
  exactly the walls of a spanning tree of the cells, rooted at the bottom-right
  cell. That is `rows * cols - 1` walls, each strictly inside the border and
  between two cells. No other slot of `maze` changes. The jump to a random
  cell (`maze.py:59-64`) is never taken: the walk runs out of moves with an
  empty stack only once every cell has been visited.
- **Search.** `Solve` terminates.
  - On success it returns a simple path through open walls from `start` to
    `finish`. In `solvedPath` it marks exactly that path's cell and wall slots.
  - On failure every open move out of the cells it explored leads into those
    cells or into the `visited` cells it was given, and `finish` is not among
    the explored cells.
  - In both cases the cells it explored but left off the path are unmarked,
    and every other slot keeps its old value.
- **Together.** Every carved maze is solvable from the top-left to the
  bottom-right cell. This holds for the algorithm with unbounded recursion;
  the interpreter's recursion-depth limit is not modelled (see "Left out").

## Model

| member | source | states |
|---|---|---|
| Grid.LogicalDim | maze.py:12-13 | the logical size `n` is the floor of half of one less than the requested size: `2n+1 <= requested <= 2n+2` |
| Grid.ActualDim | maze.py:14-15 | the doubled size is odd, is the requested size or one less, and equals the requested size exactly when that is odd |
| Mazes.Maze.constructor | maze.py:7-19 | the logical and doubled dimensions are derived from the requested ones; both grids have the doubled dimensions (none when negative); `maze` is all walls; `solvedPath` is all false |
| Mazes.Maze.GetNeighbors | maze.py:66-78 | the listed cells are exactly the one-step moves up, left, down, right that stay within the row and column limits; they are listed in that order, and there are at most four (and, by `Mazes.NeighborListShape` applied to the order clause, no repeats) |
| Grid.NeighborStepInBounds | maze.py:69-77 | from an in-grid cell, the listed neighbours are exactly the adjacent in-grid cells, and the neighbour relation is symmetric |
| Mazes.NeighborsInBounds | maze.py:66-78 | every neighbour listed for an in-grid cell is an adjacent in-grid cell, and every such cell is listed |
| Mazes.NeighborListShape | maze.py:69-78 | a list in strictly increasing up/left/down/right order, as `GetNeighbors` returns, has at most four cells and no repeats |
| Mazes.DirectionRanks | maze.py:69-78 | in such a list the `k`-th cell has direction rank at least `k` |
| Mazes.UnvisitedAmong | maze.py:39-40 | the filtered list holds exactly the listed neighbours not yet visited, and is no longer than the list |
| Grid.SlotCell | maze.py:32 | the cell stored at a cell slot is the one whose slot it is |
| Grid.CellSlotInverse | maze.py:32 | a cell's slot is a cell slot, and it stores that cell |
| Grid.Between | maze.py:47-48 | the slot between two cells is the midpoint of their cell slots |
| Grid.BetweenAdjacent | maze.py:47-49 | the slot between adjacent cells is a wall slot, not a cell slot; it is the same from either side (so `solve` at maze.py:112-113 reads the wall `generate` opened); it lies strictly inside the doubled grid |
| Grid.BetweenInjective | maze.py:47-49 | a wall slot separates exactly one pair of adjacent cells |
| Grid.AllCells | maze.py:24 | the set of all cells holds exactly the in-grid cells |
| Grid.RowCells | maze.py:24 | the cells of one row are exactly those with that row and an in-range column |
| Grid.RowCellsCard | maze.py:24 | a row of `cols` cells has `cols` cells |
| Grid.CellCountProduct | maze.py:29 | counting cells row by row gives `cols * rows`, the initial count plus one |
| Grid.AllCellsCard | maze.py:29 | the grid has as many cells as the row-by-row count |
| Grid.SubsetCard | maze.py:29-35 | a subset of the cells is no larger, and equal when as large; so seeing as many cells as exist means seeing all |
| Grid.RowOutsideShrinks | maze.py:115-116 | adding cells never increases the number of cells of a row left outside, and adding one of that row decreases it |
| Grid.OutsideShrinks | maze.py:115-116 | adding cells never increases the number of in-grid cells left outside, and adding an unvisited in-grid cell decreases it: the search terminates |
| Grid.ClosedContains | maze.py:59-64 | a set of cells that holds the bottom-right cell and holds every neighbour of its cells holds every cell |
| Grid.NotAllFinished | maze.py:59-64 | while some cell is unseen, some seen cell has an unseen neighbour |
| Spanning.ExtendTree | maze.py:41-53 | attaching an unvisited neighbour below the current cell keeps a rooted tree, with one new wall not yet carved |
| Spanning.ExtendTreeOver | maze.py:41-53 | the same for the existence of a tree, and both the cell set and the wall set grow by one |
| Spanning.ClosedUnion | maze.py:110-116 | explored regions of sibling branches that are closed under open moves stay closed when joined |
| Spanning.ReachesRoot | maze.py:98-122 | a set closed under open moves that holds some cell holds the root of an open spanning tree |
| Spanning.ReachedFromRoot | maze.py:98-122 | a set closed under open moves that holds the root holds every cell |
| Spanning.SpanningTreeConnects | maze.py:98-122 | when the walls of a spanning tree are open, a set closed under open moves holding `start` holds `finish` |
| Spanning.WalkStart | maze.py:24-29 | the walk starts at the bottom-right cell with an empty stack and nothing carved, satisfying the walk invariant |
| Spanning.FinishedGrows | maze.py:52 | a cell with no unvisited neighbour keeps none as more cells are visited |
| Spanning.WalkForward | maze.py:41-53 | moving to an unvisited neighbour carves a new wall, sees one more cell, and keeps the walk invariant |
| Spanning.WalkBack | maze.py:55-58 | popping the stack when the current cell has no unvisited neighbour keeps the walk invariant |
| Spanning.WalkNeverStuck | maze.py:59-64 | while cells remain unvisited, either the stack is non-empty or the current cell has an unvisited neighbour, so the fallback never runs |
| Spanning.WalkDone | maze.py:34-35 | when every cell is seen, the walls carved form a spanning tree with one wall fewer than there are cells, each between two cells and inside the border |
| Mazes.MarkVisited | maze.py:51-52 | marking the chosen cell in the `visited` grid marks exactly one more seen cell |
| Mazes.CarveCell | maze.py:32-33 | opening the current cell's slot keeps `maze` equal to its initial contents except at carved slots, now including that cell |
| Mazes.CarveWall | maze.py:47-52 | opening the wall to the chosen neighbour carves exactly that wall more, and the neighbour becomes the current cell |
| Mazes.CarvedExactly | maze.py:31-35 | once all cells are carved, `maze` differs from its initial contents exactly at the cell slots and the carved walls, all open |
| Mazes.Maze.Advance | maze.py:41-53 | the chosen cell is one of the unvisited neighbours; the current cell is pushed; exactly the wall between them is opened; the chosen cell becomes current and visited; the walk invariant holds |
| Mazes.Maze.Step | maze.py:36-64 | one loop round after carving. A forward move pushes the current cell, makes an adjacent unseen in-grid cell current and visited, adds exactly the wall between to the tree and lowers the unvisited count by one. A backward move makes the old top of the stack current, removes exactly that element, and leaves `visited`, the seen cells, the tree and `maze` unchanged. The walk invariant and the unvisited count hold, and the fallback is unreachable |
| Mazes.Maze.Generate | maze.py:21-64 | the walk terminates; it opens all cell slots and the walls of a spanning tree rooted at the bottom-right cell, `rows * cols - 1` walls each strictly inside the border; nothing else in `maze` changes; `solvedPath` is untouched |
| Mazes.ConsPath | maze.py:111-119 | putting `start` in front of a path found from an open, unexplored neighbour gives a simple open path from `start`; its marked slots add the start slot and the wall between |
| Mazes.MarkedAfterFailure | maze.py:115-122 | a failed branch leaves `solvedPath` as if only `start` were marked among all the cells explored so far |
| Mazes.MarkedStep | maze.py:117-119 | marking the wall to a successful neighbour, with the start slot already marked, marks exactly the slots of the longer path |
| Mazes.MarkedAfterSuccess | maze.py:111-119 | a successful branch leaves `solvedPath` marking exactly the path's slots, with all other explored cells unmarked |
| Mazes.PathStaysExplored | maze.py:115-122 | every cell of an open in-grid path from `start` that avoids `visited` after its first cell lies among the cells a failed search explored |
| Mazes.FailureMeansUnreachable | maze.py:120-122 | when `solve` returns False, no open in-grid path from `start` that avoids `visited` after its first cell ends at `finish`: the converse of the success clause |
| Mazes.Maze.Solve | maze.py:107-122 | the call terminates and does not change `maze`. `visited` grows by at least `start`. If `start == finish` it succeeds with the one-cell path. On success it returns a simple open in-grid path from `start` to `finish` through newly visited cells. On failure, `finish` is not among the explored cells and every open move out of them stays in `visitedOut`. `solvedPath` marks the path's slots, unmarks the other explored cells, and keeps every other slot |
| Mazes.Maze.Explore | maze.py:110-119 | one loop round of the search, through an open wall into an unvisited neighbour: the search from that neighbour succeeds or fails as above; on success the path is `start`, then `neighbor`, then the neighbour's path, and the wall between `start` and `neighbor` is marked |
| Mazes.Maze.SolveFrom | maze.py:98-106 | a missing start is `(0, 0)`, a missing finish `(rows-1, cols-1)` and a missing visited set empty; then as `Solve` |
| Mazes.Maze.GenerateAndSolve | maze.py:141-148 | after carving, the search from the top-left to the bottom-right cell always succeeds (recursion depth unbounded, see "Left out"); with `solvedPath` clear beforehand, it then marks exactly the path's slots |

## Left out

- `display` (maze.py:80-96): plotting with matplotlib, with floating-point axis fractions and colours.
- The command-line block (maze.py:124-159): argument parsing, image output, the `m.display()` calls (maze.py:142, 149) and the `if args.solve` guard (maze.py:147). `GenerateAndSolve` models only the `m.generate()` then `m.solve()` calls (maze.py:141, 148) on an existing maze in its freshly constructed state, which it takes as its precondition; it does not itself construct the maze.
- The probability distribution of `random.sample` (maze.py:43): the choice is modelled as an arbitrary unvisited neighbour (`:|`). Every property holds for every choice.
- `randint` (maze.py:62) and the rest of the fallback branch (maze.py:59-64): the branch is proved unreachable, so the model has `assert false` there in place of a random cell.
- Mazes.Maze.Solve: Python passes one mutable `visited` set that all recursive calls share. The model passes the set in and returns the grown set as `visitedOut`. A caller that holds the same set object sees the additions only through that result.
- Mazes.Maze.Solve: the recursion depth is unbounded in the model. `solve` (maze.py:116) nests one call per cell of the current search path, so on a large maze CPython's recursion-depth limit (1000 frames by default) can raise `RecursionError` before the search ends; that error is not modelled, so the success of `Solve` and of `GenerateAndSolve` is a property of the algorithm, not a promise that the program avoids that limit.
- Mazes.Maze.Solve: requires `start` inside the grid. For other starts the source raises `IndexError`, or for some negative coordinates writes a slot counted from the end of a row (Python negative indexing). Neither is modelled.
- Mazes.Maze.Generate: requires at least one logical row and column, as the source indexes `visited[rows-1][cols-1]` (maze.py:27-28) without checking.
- Mazes.Maze.Generate: the `visited` matrix is a value (`seq<seq<bool>>`) updated by reassignment, not a list of lists mutated in place; it is local to the call, so no aliasing is lost.
- The path `Solve` returns is ghost: the source reports only success and the marks in `solved_path`.
- Mazes.Maze.Step, Mazes.Maze.Advance and Mazes.Maze.Explore are not separate functions in the source. They are the bodies of the `generate` loop and of the `solve` loop, split out so that each proof stays small.

=== FILE: grid.dfy ===
/**
 The geometry of a maze: logical cells, the doubled "brick" grid that stores
 them, and the fixed up/left/down/right neighbour order.

 Logical cell (r, c) lives at slot (2r+1, 2c+1) of the doubled grid; the slot
 between two adjacent cells is the midpoint of their two cell slots.
 */
module Grid {

  /** A logical maze cell (a room), addressed by row and column. */
  datatype Cell = Cell(row: int, col: int)

  /** A position (row, column) in the doubled wall grid. */
  datatype Slot = Slot(i: int, j: int)

  /** The number of logical rows (or columns) derived from a requested size. */
  function LogicalDim(requested: int): (n: int)
    ensures 2 * n + 1 <= requested <= 2 * n + 2
  {
    (requested - 1) / 2
  }

  /** The size of the doubled grid along one axis: always odd, and the
      requested size itself exactly when that is odd. */
  function ActualDim(requested: int): (a: int)
    ensures a % 2 == 1
    ensures a == requested || a == requested - 1
    ensures a == requested <==> requested % 2 == 1
  {
    2 * LogicalDim(requested) + 1
  }

  /** The number of rows of a list of `n` lists when `n` may be negative. */
  function Max0(n: int): nat
  {
    if n < 0 then 0 else n
  }

  predicate InBounds(rows: int, cols: int, c: Cell)
  {
    0 <= c.row < rows && 0 <= c.col < cols
  }

  function Abs(x: int): nat
  {
    if x < 0 then -x else x
  }

  /** Two cells differ by exactly one in exactly one coordinate. */
  predicate Adjacent(a: Cell, b: Cell)
  {
    Abs(a.row - b.row) + Abs(a.col - b.col) == 1
  }

  /** Rank of `b` seen from `a` in the order up (0), left (1), down (2), right (3). */
  function Direction(a: Cell, b: Cell): int
  {
    if b.row < a.row then 0
    else if b.col < a.col then 1
    else if b.row > a.row then 2
    else 3
  }

  /** `n` is one of the neighbours listed for `c`: one step up, left, down or
      right, where a step up or left may not leave row or column 0 and a step
      down or right may not pass the last row or column of a rows x cols grid. */
  predicate NeighborStep(rows: int, cols: int, c: Cell, n: Cell)
  {
    && Adjacent(c, n)
    && (n.row < c.row ==> n.row >= 0) && (n.row > c.row ==> n.row <= rows - 1)
    && (n.col < c.col ==> n.col >= 0) && (n.col > c.col ==> n.col <= cols - 1)
  }

  /** From a cell inside the grid, the neighbour steps are exactly the
      adjacent cells inside the grid, and each leads back by a neighbour step. */
  lemma NeighborStepInBounds(rows: int, cols: int, c: Cell, n: Cell)
    requires InBounds(rows, cols, c)
    ensures NeighborStep(rows, cols, c, n) <==> InBounds(rows, cols, n) && Adjacent(c, n)
    ensures NeighborStep(rows, cols, c, n) ==> NeighborStep(rows, cols, n, c)
  {
  }

  /** The slot that stores cell `c`. */
  function CellSlot(c: Cell): Slot
  {
    Slot(2 * c.row + 1, 2 * c.col + 1)
  }

  predicate IsCellSlot(s: Slot)
  {
    s.i % 2 == 1 && s.j % 2 == 1
  }

  /** The cell stored at a cell slot: the inverse of CellSlot. */
  function SlotCell(s: Slot): (c: Cell)
    requires IsCellSlot(s)
    ensures CellSlot(c) == s
  {
    Cell((s.i - 1) / 2, (s.j - 1) / 2)
  }

  lemma CellSlotInverse(c: Cell)
    ensures IsCellSlot(CellSlot(c)) && SlotCell(CellSlot(c)) == c
  {
  }

  /** A slot with one odd and one even coordinate separates two cells. */
  predicate IsWallSlot(s: Slot)
  {
    (s.i + s.j) % 2 == 1
  }

  /** The slot between cells `a` and `b`: the midpoint of their cell slots. */
  function Between(a: Cell, b: Cell): (s: Slot)
    ensures 2 * s.i == CellSlot(a).i + CellSlot(b).i
    ensures 2 * s.j == CellSlot(a).j + CellSlot(b).j
  {
    Slot(a.row + b.row + 1, a.col + b.col + 1)
  }

  /** The slot between two adjacent cells is a wall slot, the same from
      either side, and strictly inside the grid when both cells are. */
  lemma BetweenAdjacent(rows: int, cols: int, a: Cell, b: Cell)
    requires Adjacent(a, b)
    ensures IsWallSlot(Between(a, b)) && !IsCellSlot(Between(a, b))
    ensures Between(a, b) == Between(b, a)
    ensures InBounds(rows, cols, a) && InBounds(rows, cols, b) ==>
              1 <= Between(a, b).i <= 2 * rows - 1 && 1 <= Between(a, b).j <= 2 * cols - 1
  {
  }

  /** A wall slot separates exactly one pair of adjacent cells. */
  lemma BetweenInjective(a: Cell, b: Cell, c: Cell, d: Cell)
    requires Adjacent(a, b) && Adjacent(c, d) && Between(a, b) == Between(c, d)
    ensures (a == c && b == d) || (a == d && b == c)
  {
  }

  /** The wall between `a` and `b` lies inside `maze` and is open. */
  predicate IsOpen(maze: array2<bool>, a: Cell, b: Cell)
    reads maze
  {
    var s := Between(a, b);
    0 <= s.i < maze.Length0 && 0 <= s.j < maze.Length1 && !maze[s.i, s.j]
  }

  /** Every cell of a rows x cols grid. */
  function AllCells(rows: int, cols: int): (cells: set<Cell>)
    ensures forall c {:trigger c in cells} :: c in cells <==> InBounds(rows, cols, c)
  {
    var cells := set r, c | 0 <= r < rows && 0 <= c < cols :: Cell(r, c);
    assert forall x: Cell :: InBounds(rows, cols, x) ==> Cell(x.row, x.col) in cells;
    cells
  }

  /** The cells of row `r`. */
  function RowCells(r: int, cols: int): (cells: set<Cell>)
    ensures forall c {:trigger c in cells} :: c in cells <==> c.row == r && 0 <= c.col < cols
  {
    var cells := set c | 0 <= c < cols :: Cell(r, c);
    assert forall x: Cell :: x.row == r && 0 <= x.col < cols ==> Cell(r, x.col) in cells;
    cells
  }

  lemma {:induction false} RowCellsCard(r: int, cols: nat)
    ensures |RowCells(r, cols)| == cols
  {
    if cols > 0 {
      RowCellsCard(r, cols - 1);
      assert RowCells(r, cols) == RowCells(r, cols - 1) + {Cell(r, cols - 1)};
    } else {
      assert RowCells(r, cols) == {};
    }
  }

  /** The number of cells of a grid of `rows` rows of `cols` cells each,
      counted row by row. */
  function CellCount(rows: int, cols: int): int
    decreases rows
  {
    if rows <= 0 then 0 else CellCount(rows - 1, cols) + cols
  }

  /** Counting row by row gives the product cols * rows. */
  lemma {:induction false} CellCountProduct(rows: nat, cols: int)
    ensures CellCount(rows, cols) == cols * rows
  {
    if rows > 0 {
      CellCountProduct(rows - 1, cols);
      assert cols * rows == cols * (rows - 1) + cols;
    }
  }

  /** A rows x cols grid has rows * cols cells. */
  lemma {:induction false} AllCellsCard(rows: nat, cols: nat)
    ensures |AllCells(rows, cols)| == CellCount(rows, cols)
  {
    if rows > 0 {
      AllCellsCard(rows - 1, cols);
      RowCellsCard(rows - 1, cols);
      forall c ensures c in AllCells(rows, cols) <==> c in AllCells(rows - 1, cols) || c in RowCells(rows - 1, cols) {
      }
      assert AllCells(rows, cols) == AllCells(rows - 1, cols) + RowCells(rows - 1, cols);
      assert AllCells(rows - 1, cols) !! RowCells(rows - 1, cols);
    } else {
      assert AllCells(rows, cols) == {};
    }
  }

  /** A subset is no larger than its superset, and equal to it when as large. */
  lemma SubsetCard<T>(a: set<T>, b: set<T>)
    requires a <= b
    ensures |a| <= |b|
    ensures |a| == |b| ==> a == b
  {
    assert b == a + (b - a);
    assert a !! (b - a);
    if |a| == |b| {
      assert |b - a| == 0;
    }
  }

  /** The number of cells (r, 0) .. (r, c - 1) not in `s`. */
  ghost function RowOutside(r: int, c: int, s: set<Cell>): nat
    decreases c
  {
    if c <= 0 then 0 else RowOutside(r, c - 1, s) + (if Cell(r, c - 1) in s then 0 else 1)
  }

  /** The number of cells of a rows x cols grid not in `s`. */
  ghost function Outside(rows: int, cols: int, s: set<Cell>): nat
    decreases rows
  {
    if rows <= 0 then 0 else Outside(rows - 1, cols, s) + RowOutside(rows - 1, cols, s)
  }

  lemma {:induction false} RowOutsideShrinks(r: int, c: int, a: set<Cell>, b: set<Cell>, x: Cell)
    requires a <= b
    ensures RowOutside(r, c, b) <= RowOutside(r, c, a)
    ensures x in b && x !in a && x.row == r && 0 <= x.col < c ==> RowOutside(r, c, b) < RowOutside(r, c, a)
    decreases c
  {
    if c > 0 {
      RowOutsideShrinks(r, c - 1, a, b, x);
    }
  }

  /** Growing `a` to `b` leaves no more grid cells outside, and fewer when
      `b` gains a grid cell `x`. */
  lemma {:induction false} OutsideShrinks(rows: int, cols: int, a: set<Cell>, b: set<Cell>, x: Cell)
    requires a <= b
    ensures Outside(rows, cols, b) <= Outside(rows, cols, a)
    ensures x in b && x !in a && InBounds(rows, cols, x) ==> Outside(rows, cols, b) < Outside(rows, cols, a)
    decreases rows
  {
    if rows > 0 {
      OutsideShrinks(rows - 1, cols, a, b, x);
      RowOutsideShrinks(rows - 1, cols, a, b, x);
    }
  }

  /** Every neighbour of `v` inside the grid is in `seen`. */
  ghost predicate Finished(rows: int, cols: int, v: Cell, seen: set<Cell>)
  {
    forall w {:trigger NeighborStep(rows, cols, v, w)} :: NeighborStep(rows, cols, v, w) ==> w in seen
  }

  /** A set of cells that holds the bottom-right cell and is closed under the
      neighbour relation holds cell (r, c): the grid is connected. */
  lemma {:induction false} ClosedContains(rows: int, cols: int, seen: set<Cell>, r: int, c: int)
    requires Cell(rows - 1, cols - 1) in seen
    requires forall v :: v in seen ==> Finished(rows, cols, v, seen)
    requires 0 <= r < rows && 0 <= c < cols
    ensures Cell(r, c) in seen
    decreases rows - r, cols - c
  {
    if c < cols - 1 {
      ClosedContains(rows, cols, seen, r, c + 1);
      assert NeighborStep(rows, cols, Cell(r, c + 1), Cell(r, c));
    } else if r < rows - 1 {
      ClosedContains(rows, cols, seen, r + 1, c);
      assert NeighborStep(rows, cols, Cell(r + 1, c), Cell(r, c));
    }
  }

  /** While some cell of the grid is unseen (and the bottom-right one is
      seen), some seen cell still has an unseen neighbour. */
  lemma NotAllFinished(rows: int, cols: int, seen: set<Cell>)
    requires rows >= 1 && cols >= 1
    requires seen <= AllCells(rows, cols) && Cell(rows - 1, cols - 1) in seen
    requires |seen| < |AllCells(rows, cols)|
    ensures exists v :: v in seen && !Finished(rows, cols, v, seen)
  {
    if forall v :: v in seen ==> Finished(rows, cols, v, seen) {
      forall v | v in AllCells(rows, cols) ensures v in seen {
        ClosedContains(rows, cols, seen, v.row, v.col);
      }
      SubsetCard(AllCells(rows, cols), seen);
    }
  }
}

=== FILE: maze.dfy ===
/**
 The maze object: two boolean grids over the doubled cell/wall layout, a
 randomized depth-first carver and a depth-first solver that marks its path.

 `maze[i, j]` is true where slot (i, j) is a wall; `solvedPath[i, j]` is true
 where slot (i, j) lies on the path the solver found.
 */
module Mazes {
  import opened Grid
  import opened Spanning

  datatype Option<T> = None | Some(value: T)
  {
    function GetOr(default: T): T
    {
      match this
      case Some(v) => v
      case None => default
    }
  }

  /** The cells of `ns` whose `visited` entry is still false, in order. */
  function UnvisitedAmong(ns: seq<Cell>, visited: seq<seq<bool>>): (r: seq<Cell>)
    requires forall k :: 0 <= k < |ns| ==> 0 <= ns[k].row < |visited| && 0 <= ns[k].col < |visited[ns[k].row]|
    ensures |r| <= |ns|
    ensures forall x {:trigger x in r} {:trigger x in ns} :: x in r <==> x in ns && !visited[x.row][x.col]
  {
    if ns == [] then []
    else
      (if !visited[ns[0].row][ns[0].col] then [ns[0]] else [])
      + UnvisitedAmong(ns[1..], visited)
  }

  /** The neighbours listed for a cell inside the grid lie inside it. */
  lemma NeighborsInBounds(rows: int, cols: int, neighbors: seq<Cell>, c: Cell)
    requires InBounds(rows, cols, c)
    requires forall n {:trigger n in neighbors} :: n in neighbors <==> NeighborStep(rows, cols, c, n)
    ensures forall n {:trigger n in neighbors} :: n in neighbors <==> InBounds(rows, cols, n) && Adjacent(c, n)
    ensures forall k :: 0 <= k < |neighbors| ==> InBounds(rows, cols, neighbors[k])
  {
    forall n ensures n in neighbors <==> InBounds(rows, cols, n) && Adjacent(c, n) {
      NeighborStepInBounds(rows, cols, c, n);
    }
    forall k | 0 <= k < |neighbors| ensures InBounds(rows, cols, neighbors[k]) {
      assert neighbors[k] in neighbors;
    }
  }

  /** A neighbour list in strictly increasing direction order has no
      repeated cell and at most one cell per direction. */
  lemma NeighborListShape(c: Cell, ns: seq<Cell>)
    requires forall k, l :: 0 <= k < l < |ns| ==> Direction(c, ns[k]) < Direction(c, ns[l])
    ensures |ns| <= 4
    ensures forall k, l :: 0 <= k < l < |ns| ==> ns[k] != ns[l]
  {
    if |ns| > 0 {
      DirectionRanks(c, ns, |ns| - 1);
    }
  }

  lemma {:induction false} DirectionRanks(c: Cell, ns: seq<Cell>, k: nat)
    requires forall k, l :: 0 <= k < l < |ns| ==> Direction(c, ns[k]) < Direction(c, ns[l])
    requires k < |ns|
    ensures Direction(c, ns[k]) >= k
  {
    if k > 0 {
      DirectionRanks(c, ns, k - 1);
    }
  }

  /** The slots a solution path marks: each cell's slot and the wall slot
      between each pair of consecutive cells. */
  ghost function PathSlots(path: seq<Cell>): set<Slot>
  {
    if path == [] then {}
    else if |path| == 1 then {CellSlot(path[0])}
    else {CellSlot(path[0]), Between(path[0], path[1])} + PathSlots(path[1..])
  }

  /** Cells `k` and `k + 1` of `path` are adjacent and joined through an open wall. */
  ghost predicate OpenStep(maze: array2<bool>, path: seq<Cell>, k: int)
    reads maze
  {
    0 <= k < |path| - 1 && Adjacent(path[k], path[k + 1]) && IsOpen(maze, path[k], path[k + 1])
  }

  /** Consecutive cells of `path` are adjacent and joined through an open wall,
      and no cell occurs twice. */
  ghost predicate SimpleOpenPath(maze: array2<bool>, path: seq<Cell>)
    reads maze
  {
    && (forall k :: 0 <= k < |path| - 1 ==> OpenStep(maze, path, k))
    && (forall k, l :: 0 <= k < l < |path| ==> path[k] != path[l])
  }

  /** `path` leads from `start` to `finish` inside the rows x cols grid as
      a simple open path, and each of its cells after `start` is in `newCells`. */
  ghost predicate PathFound(maze: array2<bool>, rows: int, cols: int, path: seq<Cell>,
                            start: Cell, finish: Cell, newCells: set<Cell>)
    reads maze
  {
    && |path| >= 1 && path[0] == start && path[|path| - 1] == finish
    && SimpleOpenPath(maze, path)
    && (forall k :: 0 <= k < |path| ==> InBounds(rows, cols, path[k]))
    && (forall k :: 1 <= k < |path| ==> path[k] in newCells)
  }

  /** Putting cell `c` in front of a path found from its neighbour `next`,
      through the open wall between them, gives a path found from `c`; it
      marks the slot of `c` and that wall besides the slots of the old path. */
  lemma ConsPath(maze: array2<bool>, rows: int, cols: int, c: Cell, next: Cell, path: seq<Cell>,
                 finish: Cell, newCells: set<Cell>, newCells': set<Cell>)
    requires PathFound(maze, rows, cols, path, next, finish, newCells)
    requires InBounds(rows, cols, c) && Adjacent(c, next) && IsOpen(maze, c, next)
    requires c !in newCells && c != next && newCells + {next} <= newCells'
    ensures PathFound(maze, rows, cols, [c] + path, c, finish, newCells')
    ensures PathSlots([c] + path) == {CellSlot(c), Between(c, next)} + PathSlots(path)
  {
    var p := [c] + path;
    assert p[1..] == path;
    forall k, l | 0 <= k < l < |p| ensures p[k] != p[l] {
      if k == 0 {
        assert p[l] == path[l - 1];
        if l > 1 {
          assert path[l - 1] in newCells;
        }
      }
    }
    forall k | 0 <= k < |p| - 1 ensures OpenStep(maze, p, k) {
      if k > 0 {
        assert p[k] == path[k - 1] && p[k + 1] == path[k];
        assert OpenStep(maze, path, k - 1);
      }
    }
  }

  /** An open in-grid path from `start` whose later cells avoid `visited`
      stays among the cells a failed search explored: every open move out of
      them leads back into `visitedOut`. */
  lemma {:induction false} PathStaysExplored(maze: array2<bool>, rows: int, cols: int, path: seq<Cell>,
                                             start: Cell, visited: set<Cell>, visitedOut: set<Cell>, k: nat)
    requires ClosedUnderOpenMoves(rows, cols, maze, visitedOut - visited + {start}, visitedOut)
    requires |path| >= 1 && path[0] == start
    requires forall i :: 0 <= i < |path| - 1 ==> OpenStep(maze, path, i)
    requires forall i :: 0 <= i < |path| ==> InBounds(rows, cols, path[i])
    requires forall i :: 1 <= i < |path| ==> path[i] !in visited
    requires k < |path|
    ensures path[k] in visitedOut - visited + {start}
    decreases k
  {
    if k > 0 {
      PathStaysExplored(maze, rows, cols, path, start, visited, visitedOut, k - 1);
      assert OpenStep(maze, path, k - 1);
    }
  }

  /** A failed search from `start` leaves `finish` unreachable: no open
      in-grid path from `start` that avoids `visited` after its first cell
      ends at `finish`. */
  lemma FailureMeansUnreachable(maze: array2<bool>, rows: int, cols: int, path: seq<Cell>,
                                start: Cell, finish: Cell, visited: set<Cell>, visitedOut: set<Cell>)
    requires ClosedUnderOpenMoves(rows, cols, maze, visitedOut - visited + {start}, visitedOut)
    requires finish !in visitedOut - visited + {start}
    requires |path| >= 1 && path[0] == start
    requires forall i :: 0 <= i < |path| - 1 ==> OpenStep(maze, path, i)
    requires forall i :: 0 <= i < |path| ==> InBounds(rows, cols, path[i])
    requires forall i :: 1 <= i < |path| ==> path[i] !in visited
    ensures path[|path| - 1] != finish
  {
    PathStaysExplored(maze, rows, cols, path, start, visited, visitedOut, |path| - 1);
  }

  /** What `solvedPath` holds at slot `s` after a search that explored the
      cells of `explored` and found `path` (empty when it failed), where it
      held `prior` before: the slots of the path are marked, the slots of the
      other explored cells unmarked, and every other slot is as it was. */
  ghost function Marked(path: seq<Cell>, explored: set<Cell>, s: Slot, prior: bool): bool
  {
    if s in PathSlots(path) then true
    else if IsCellSlot(s) && SlotCell(s) in explored then false
    else prior
  }

  /** A failed search from a neighbour, started while only `start` is
      marked, leaves only `start` marked among all cells explored. */
  lemma MarkedAfterFailure(start: Cell, explored: set<Cell>, explored': set<Cell>, s: Slot, prior: bool)
    requires start in explored && start !in explored'
    ensures Marked([], explored', s, Marked([start], explored, s, prior)) == Marked([start], explored + explored', s, prior)
  {
  }

  /** Opening the wall from `start` into the path `path` found from `next`,
      while the slot of `start` is marked, marks exactly the slots of the
      longer path `[start] + path`. */
  lemma MarkedStep(start: Cell, next: Cell, path: seq<Cell>, explored: set<Cell>, s: Slot, prior: bool)
    requires PathSlots([start] + path) == {CellSlot(start), Between(start, next)} + PathSlots(path)
    requires start !in explored && (s == CellSlot(start) ==> prior)
    ensures (if s == Between(start, next) then true else Marked(path, explored, s, prior))
            == Marked([start] + path, explored, s, prior)
  {
  }

  /** A search from a neighbour, started while only `start` is marked among
      the cells explored so far, whose result `path` passes through `start`,
      leaves the slots marked as one search over all cells explored. */
  lemma MarkedAfterSuccess(start: Cell, path: seq<Cell>, explored: set<Cell>, explored': set<Cell>,
                           s: Slot, prior: bool)
    requires CellSlot(start) in PathSlots(path)
    requires start in explored && start !in explored'
    ensures Marked(path, explored', s, Marked([start], explored, s, prior)) == Marked(path, explored + explored', s, prior)
  {
  }

  /** The rows x cols visited grid marks exactly the cells of `seen`. */
  ghost predicate MarksSeen(visited: seq<seq<bool>>, rows: int, cols: int, seen: set<Cell>)
  {
    && |visited| == rows
    && (forall r :: 0 <= r < rows ==> |visited[r]| == cols)
    && (forall r, c {:trigger visited[r][c]} :: 0 <= r < rows && 0 <= c < cols ==>
          (visited[r][c] <==> Cell(r, c) in seen))
  }

  /** Marking cell `c` visited marks one more seen cell. */
  lemma MarkVisited(visited: seq<seq<bool>>, rows: int, cols: int, seen: set<Cell>, c: Cell)
    requires MarksSeen(visited, rows, cols, seen) && InBounds(rows, cols, c)
    ensures MarksSeen(visited[c.row := visited[c.row][c.col := true]], rows, cols, seen + {c})
  {
  }

  /** Slot `s` has been carved: it is one of `walls` or the cell slot of a
      cell of `seen`, where the slot of `cur` counts only once `curCarved`. */
  ghost predicate Carved(walls: set<Slot>, seen: set<Cell>, cur: Cell, curCarved: bool, s: Slot)
  {
    s in walls || (IsCellSlot(s) && SlotCell(s) in seen && (curCarved || SlotCell(s) != cur))
  }

  /** The contents of `maze`, row by row. */
  ghost function Snapshot(maze: array2<bool>): (m: seq<seq<bool>>)
    reads maze
    ensures |m| == maze.Length0 && forall i :: 0 <= i < |m| ==> |m[i]| == maze.Length1
    ensures forall i, j {:trigger m[i][j]} :: 0 <= i < maze.Length0 && 0 <= j < maze.Length1 ==> m[i][j] == maze[i, j]
  {
    seq(maze.Length0, i requires 0 <= i < maze.Length0 reads maze =>
      seq(maze.Length1, j requires 0 <= j < maze.Length1 reads maze => maze[i, j]))
  }

  /** Compared with `before`, `maze` changed exactly at the carved slots,
      which are all open. */
  ghost predicate CarvedSoFar(maze: array2<bool>, before: seq<seq<bool>>, walls: set<Slot>, seen: set<Cell>, cur: Cell, curCarved: bool)
    reads maze
  {
    && |before| == maze.Length0 && (forall i :: 0 <= i < |before| ==> |before[i]| == maze.Length1)
    && forall i, j {:trigger maze[i, j]} :: 0 <= i < maze.Length0 && 0 <= j < maze.Length1 ==>
         maze[i, j] == if Carved(walls, seen, cur, curCarved, Slot(i, j)) then false else before[i][j]
  }

  /** CarvedSoFar, except perhaps at slot `s`. */
  ghost predicate CarvedSoFarBut(maze: array2<bool>, before: seq<seq<bool>>, walls: set<Slot>, seen: set<Cell>, cur: Cell, curCarved: bool, s: Slot)
    reads maze
  {
    && |before| == maze.Length0 && (forall i :: 0 <= i < |before| ==> |before[i]| == maze.Length1)
    && forall i, j {:trigger maze[i, j]} :: 0 <= i < maze.Length0 && 0 <= j < maze.Length1 && (i != s.i || j != s.j) ==>
         maze[i, j] == if Carved(walls, seen, cur, curCarved, Slot(i, j)) then false else before[i][j]
  }

  /** Opening the slot of the current cell carves it. */
  lemma CarveCell(maze: array2<bool>, before: seq<seq<bool>>, walls: set<Slot>, seen: set<Cell>, cur: Cell, curCarved: bool)
    requires cur in seen
    requires CarvedSoFarBut(maze, before, walls, seen, cur, curCarved, CellSlot(cur))
    requires 0 <= CellSlot(cur).i < maze.Length0 && 0 <= CellSlot(cur).j < maze.Length1
    requires !maze[CellSlot(cur).i, CellSlot(cur).j]
    ensures CarvedSoFar(maze, before, walls, seen, cur, true)
  {
  }

  /** Opening the wall from the carved current cell to an unseen neighbour
      `next` carves that wall, and `next` becomes current, not yet carved. */
  lemma CarveWall(maze: array2<bool>, before: seq<seq<bool>>, walls: set<Slot>, seen: set<Cell>, cur: Cell, next: Cell)
    requires next !in seen
    requires CarvedSoFarBut(maze, before, walls, seen, cur, true, Between(cur, next))
    requires 0 <= Between(cur, next).i < maze.Length0 && 0 <= Between(cur, next).j < maze.Length1
    requires !maze[Between(cur, next).i, Between(cur, next).j]
    ensures CarvedSoFar(maze, before, walls + {Between(cur, next)}, seen + {next}, next, false)
  {
  }

  /** Once every cell of a rows x cols grid is carved, the maze differs from
      `before` exactly at the cell slots and the slots of `walls`, and all of
      those are open. */
  lemma CarvedExactly(maze: array2<bool>, before: seq<seq<bool>>, rows: int, cols: int, walls: set<Slot>, cells: set<Cell>, cur: Cell)
    requires maze.Length0 == 2 * rows + 1 && maze.Length1 == 2 * cols + 1
    requires CarvedSoFar(maze, before, walls, cells, cur, true)
    requires AllCells(rows, cols) <= cells
    ensures forall i, j {:trigger maze[i, j]} :: 0 <= i < maze.Length0 && 0 <= j < maze.Length1 ==>
              maze[i, j] == if IsCellSlot(Slot(i, j)) || Slot(i, j) in walls then false else before[i][j]
  {
  }

  class Maze {
    /** Logical rows and columns. */
    const rows: int
    const cols: int
    /** Rows and columns of the doubled grids. */
    const actualNumRows: int
    const actualNumCols: int
    /** Wall grid: true where a slot is walled. */
    const maze: array2<bool>
    /** Path grid: true where a slot lies on the solution path. */
    const solvedPath: array2<bool>

    ghost predicate Valid()
    {
      && actualNumRows == 2 * rows + 1 && actualNumCols == 2 * cols + 1
      && maze.Length0 == Max0(actualNumRows) && maze.Length1 == Max0(actualNumCols)
      && solvedPath.Length0 == Max0(actualNumRows) && solvedPath.Length1 == Max0(actualNumCols)
      && maze != solvedPath
    }

    /** A maze of `requestedRows` x `requestedCols` slots: every slot walled,
        no slot on the path. */
    constructor (requestedRows: int, requestedCols: int)
      ensures Valid()
      ensures rows == LogicalDim(requestedRows) && cols == LogicalDim(requestedCols)
      ensures actualNumRows == ActualDim(requestedRows) && actualNumCols == ActualDim(requestedCols)
      ensures fresh(maze) && fresh(solvedPath)
      ensures forall i, j :: 0 <= i < maze.Length0 && 0 <= j < maze.Length1 ==> maze[i, j]
      ensures forall i, j :: 0 <= i < solvedPath.Length0 && 0 <= j < solvedPath.Length1 ==> !solvedPath[i, j]
    {
      var r := (requestedRows - 1) / 2;
      var c := (requestedCols - 1) / 2;
      rows, cols := r, c;
      actualNumRows, actualNumCols := 2 * r + 1, 2 * c + 1;
      maze := new bool[Max0(2 * r + 1), Max0(2 * c + 1)]((i, j) => true);
      solvedPath := new bool[Max0(2 * r + 1), Max0(2 * c + 1)]((i, j) => false);
    }

    /** The neighbours of cell (row, col), listed up, left, down, right. */
    method GetNeighbors(row: int, col: int) returns (neighbors: seq<Cell>)
      ensures forall n {:trigger n in neighbors} :: n in neighbors <==> NeighborStep(rows, cols, Cell(row, col), n)
      ensures forall k, l :: 0 <= k < l < |neighbors| ==>
                Direction(Cell(row, col), neighbors[k]) < Direction(Cell(row, col), neighbors[l])
      ensures |neighbors| <= 4
    {
      neighbors := [];
      if row >= 1 {
        neighbors := neighbors + [Cell(row - 1, col)];
      }
      if col >= 1 {
        neighbors := neighbors + [Cell(row, col - 1)];
      }
      if row <= rows - 2 {
        neighbors := neighbors + [Cell(row + 1, col)];
      }
      if col <= cols - 2 {
        neighbors := neighbors + [Cell(row, col + 1)];
      }
      NeighborListShape(Cell(row, col), neighbors);
    }

    /** One forward move of the carving walk: push the current cell, open
        the wall to an unvisited neighbour, and make that neighbour the
        current, visited cell. */
    method Advance(visited: seq<seq<bool>>, stack: seq<Cell>, row: int, col: int, unvisitedNeighbors: seq<Cell>,
                   ghost before: seq<seq<bool>>, ghost seen: set<Cell>, ghost tree: set<Slot>)
      returns (visited': seq<seq<bool>>, stack': seq<Cell>, row': int, col': int, ghost seen': set<Cell>, ghost tree': set<Slot>)
      requires Valid()
      requires WalkInv(rows, cols, Cell(row, col), stack, seen, tree)
      requires MarksSeen(visited, rows, cols, seen)
      requires CarvedSoFar(maze, before, tree, seen, Cell(row, col), true)
      requires |unvisitedNeighbors| > 0
      requires forall x :: x in unvisitedNeighbors ==> InBounds(rows, cols, x) && Adjacent(Cell(row, col), x) && x !in seen
      modifies maze
      ensures Cell(row', col') in unvisitedNeighbors && InBounds(rows, cols, Cell(row', col'))
      ensures stack' == stack + [Cell(row, col)]
      ensures visited' == visited[row' := visited[row'][col' := true]]
      ensures seen' == seen + {Cell(row', col')} && |seen'| == |seen| + 1
      ensures tree' == tree + {Between(Cell(row, col), Cell(row', col'))}
      ensures WalkInv(rows, cols, Cell(row', col'), stack', seen', tree')
      ensures MarksSeen(visited', rows, cols, seen')
      ensures CarvedSoFar(maze, before, tree', seen', Cell(row', col'), false)
    {
      ghost var cur := Cell(row, col);
      var mazeRow, mazeCol := 2 * row + 1, 2 * col + 1;
      // any unvisited neighbour may be chosen
      assert unvisitedNeighbors[0] in unvisitedNeighbors;
      var chosen :| chosen in unvisitedNeighbors;
      assert && Between(cur, chosen) !in tree && |seen + {chosen}| == |seen| + 1
             && WalkInv(rows, cols, chosen, stack + [cur], seen + {chosen}, tree + {Between(cur, chosen)})
      by {
        WalkForward(rows, cols, cur, stack, seen, tree, chosen);
      }
      assert 1 <= Between(cur, chosen).i <= 2 * rows - 1 && 1 <= Between(cur, chosen).j <= 2 * cols - 1
      by {
        BetweenAdjacent(rows, cols, cur, chosen);
      }
      stack' := stack + [Cell(row, col)];
      var tempRow := mazeRow + chosen.row - row;
      var tempCol := mazeCol + chosen.col - col;
      assert tempRow == Between(cur, chosen).i && tempCol == Between(cur, chosen).j;
      maze[tempRow, tempCol] := false;
      CarveWall(maze, before, tree, seen, cur, chosen);
      tree' := tree + {Between(cur, chosen)};
      row', col' := chosen.row, chosen.col;
      MarkVisited(visited, rows, cols, seen, chosen);
      visited' := visited[row' := visited[row'][col' := true]];
      seen' := seen + {chosen};
    }

    /** One move of the carving walk once the current cell is carved and
        some cell is still unvisited: forward to a random unvisited
        neighbour, or else back to the cell on top of the stack. */
    method Step(visited: seq<seq<bool>>, stack: seq<Cell>, row: int, col: int, numUnvisited: int,
                ghost before: seq<seq<bool>>, ghost seen: set<Cell>, ghost tree: set<Slot>)
      returns (visited': seq<seq<bool>>, stack': seq<Cell>, row': int, col': int, numUnvisited': int,
               ghost seen': set<Cell>, ghost tree': set<Slot>, ghost curCarved': bool)
      requires Valid()
      requires WalkInv(rows, cols, Cell(row, col), stack, seen, tree)
      requires MarksSeen(visited, rows, cols, seen)
      requires 0 < numUnvisited == |AllCells(rows, cols)| - |seen|
      requires CarvedSoFar(maze, before, tree, seen, Cell(row, col), true)
      modifies maze
      ensures WalkInv(rows, cols, Cell(row', col'), stack', seen', tree')
      ensures MarksSeen(visited', rows, cols, seen')
      ensures 0 <= numUnvisited' == |AllCells(rows, cols)| - |seen'|
      ensures CarvedSoFar(maze, before, tree', seen', Cell(row', col'), curCarved')
      ensures numUnvisited' < numUnvisited || (numUnvisited' == numUnvisited && |stack'| < |stack|)
      ensures numUnvisited' < numUnvisited ==>
                && numUnvisited' == numUnvisited - 1 && !curCarved'
                && stack' == stack + [Cell(row, col)]
                && InBounds(rows, cols, Cell(row', col')) && Adjacent(Cell(row, col), Cell(row', col'))
                && Cell(row', col') !in seen && seen' == seen + {Cell(row', col')}
                && tree' == tree + {Between(Cell(row, col), Cell(row', col'))}
                && visited' == visited[row' := visited[row'][col' := true]]
      ensures numUnvisited' == numUnvisited ==>
                && stack != [] && Cell(row', col') == stack[|stack| - 1] && stack' == stack[..|stack| - 1]
                && visited' == visited && seen' == seen && tree' == tree && curCarved' && unchanged(maze)
    {
      var neighbors := GetNeighbors(row, col);
      ghost var cur := Cell(row, col);
      assert forall k :: 0 <= k < |neighbors| ==> InBounds(rows, cols, neighbors[k]) by {
        NeighborsInBounds(rows, cols, neighbors, cur);
      }
      var unvisitedNeighbors := UnvisitedAmong(neighbors, visited);
      assert |unvisitedNeighbors| > 0 || |stack| > 0 by {
        WalkNeverStuck(rows, cols, cur, stack, seen, tree);
        if stack == [] {
          var w :| NeighborStep(rows, cols, cur, w) && w !in seen;
          NeighborStepInBounds(rows, cols, cur, w);
          assert w in unvisitedNeighbors;
        }
      }
      if |unvisitedNeighbors| > 0 {
        assert forall x :: x in unvisitedNeighbors ==> InBounds(rows, cols, x) && Adjacent(cur, x) && x !in seen by {
          NeighborsInBounds(rows, cols, neighbors, cur);
        }
        visited', stack', row', col', seen', tree' := Advance(visited, stack, row, col, unvisitedNeighbors, before, seen, tree);
        numUnvisited' := numUnvisited - 1;
        curCarved' := false;
      } else if |stack| > 0 {
        assert WalkInv(rows, cols, stack[|stack| - 1], stack[..|stack| - 1], seen, tree) by {
          forall w | NeighborStep(rows, cols, cur, w) ensures w in seen {
            assert w !in unvisitedNeighbors;
          }
          WalkBack(rows, cols, cur, stack, seen, tree);
        }
        var top := stack[|stack| - 1];
        row', col' := top.row, top.col;
        stack' := stack[..|stack| - 1];
        visited', numUnvisited', seen', tree', curCarved' := visited, numUnvisited, seen, tree, true;
      } else {
        // The jump to a random cell (maze.py:59-64) is never taken: the walk
        // runs out of moves with an empty stack only once every cell is seen.
        assert false;
      }
    }

    /** Carves a perfect maze: a randomized depth-first walk from the
        bottom-right cell that opens every cell slot and the walls of a
        spanning tree over all cells, and nothing else. The ghost result is
        that tree. */
    method Generate() returns (ghost tree: set<Slot>)
      requires Valid() && rows >= 1 && cols >= 1
      modifies maze
      ensures IsTreeOver(AllCells(rows, cols), Cell(rows - 1, cols - 1), tree)
      ensures |tree| == CellCount(rows, cols) - 1 == rows * cols - 1
      ensures forall i, j {:trigger maze[i, j]} :: 0 <= i < maze.Length0 && 0 <= j < maze.Length1 ==>
                maze[i, j] == if IsCellSlot(Slot(i, j)) || Slot(i, j) in tree then false else old(maze[i, j])
      ensures forall s {:trigger s in tree} :: s in tree ==> IsWallSlot(s) && 1 <= s.i < actualNumRows - 1 && 1 <= s.j < actualNumCols - 1
    {
      var visited := seq(rows, i => seq(cols, j => false));
      var stack: seq<Cell> := [];
      var row, col := rows - 1, cols - 1;
      visited := visited[row := visited[row][col := true]];
      var numUnvisited := cols * rows - 1;
      assert numUnvisited == CellCount(rows, cols) - 1 by {
        CellCountProduct(rows, cols);
      }
      ghost var seen: set<Cell> := {Cell(row, col)};
      tree := {};
      WalkStart(rows, cols);
      AllCellsCard(rows, cols);
      ghost var curCarved := false;
      ghost var before := Snapshot(maze);
      while true
        invariant WalkInv(rows, cols, Cell(row, col), stack, seen, tree)
        invariant MarksSeen(visited, rows, cols, seen)
        invariant 0 <= numUnvisited == |AllCells(rows, cols)| - |seen|
        invariant CarvedSoFar(maze, before, tree, seen, Cell(row, col), curCarved)
        decreases numUnvisited, |stack|
      {
        var mazeRow, mazeCol := 2 * row + 1, 2 * col + 1;
        maze[mazeRow, mazeCol] := false;
        assert CarvedSoFar(maze, before, tree, seen, Cell(row, col), true) by {
          CarveCell(maze, before, tree, seen, Cell(row, col), curCarved);
        }
        curCarved := true;
        if numUnvisited == 0 {
          break;
        }
        ghost var seen', tree';
        visited, stack, row, col, numUnvisited, seen', tree', curCarved :=
          Step(visited, stack, row, col, numUnvisited, before, seen, tree);
        seen, tree := seen', tree';
      }
      WalkDone(rows, cols, Cell(row, col), stack, seen, tree);
      CarvedExactly(maze, before, rows, cols, tree, seen, Cell(row, col));
    }

    /** Depth-first search from `start` for `finish` through open walls,
        skipping the cells of `visited`. It marks the slots of the path it
        finds in `solvedPath`; every other cell it explores is left unmarked,
        and nothing else in `solvedPath` or `maze` changes. When it fails,
        every open move out of the explored cells leads into `visitedOut`:
        `finish` is not reachable from `start` avoiding `visited`. */
    method Solve(start: Cell, finish: Cell, visited: set<Cell>)
        returns (found: bool, visitedOut: set<Cell>, ghost path: seq<Cell>)
      requires Valid() && InBounds(rows, cols, start)
      modifies solvedPath
      decreases Outside(rows, cols, visited + {start}), 1
      ensures visited + {start} <= visitedOut
      ensures start == finish ==> found && path == [start]
      ensures found ==> PathFound(maze, rows, cols, path, start, finish, visitedOut - visited)
      ensures !found ==> && path == []
                         && finish !in visitedOut - visited + {start}
                         && ClosedUnderOpenMoves(rows, cols, maze, visitedOut - visited + {start}, visitedOut)
      ensures forall i, j {:trigger solvedPath[i, j]} :: 0 <= i < solvedPath.Length0 && 0 <= j < solvedPath.Length1 ==>
                solvedPath[i, j] == Marked(path, visitedOut - visited + {start}, Slot(i, j), old(solvedPath[i, j]))
    {
      CellSlotInverse(start);
      solvedPath[2 * start.row + 1, 2 * start.col + 1] := true;
      visitedOut := visited + {start};
      if start == finish {
        return true, visitedOut, [start];
      }
      var neighbors := GetNeighbors(start.row, start.col);
      NeighborsInBounds(rows, cols, neighbors, start);
      var k := 0;
      while k < |neighbors|
        invariant 0 <= k <= |neighbors|
        invariant visited + {start} <= visitedOut
        invariant finish !in visitedOut - visited + {start}
        invariant ClosedUnderOpenMoves(rows, cols, maze, visitedOut - (visited + {start}), visitedOut)
        invariant forall m :: 0 <= m < k && IsOpen(maze, start, neighbors[m]) ==> neighbors[m] in visitedOut
        invariant solvedPath[2 * start.row + 1, 2 * start.col + 1]
        invariant forall i, j {:trigger solvedPath[i, j]} :: 0 <= i < solvedPath.Length0 && 0 <= j < solvedPath.Length1 ==>
                    solvedPath[i, j] == Marked([start], visitedOut - visited + {start}, Slot(i, j), old(solvedPath[i, j]))
      {
        var neighbor := neighbors[k];
        assert neighbor in neighbors;
        ghost var seenBefore := visitedOut;
        BetweenAdjacent(rows, cols, start, neighbor);
        if !maze[start.row + 1 + neighbor.row, start.col + 1 + neighbor.col] && neighbor !in visitedOut {
          OutsideShrinks(rows, cols, visited + {start}, visitedOut + {neighbor}, neighbor);
          ghost var before := visitedOut;
          label BeforeCall:
          var found', visited', path' := Explore(start, neighbor, finish, visitedOut);
          visitedOut := visited';
          ghost var explored, explored' := before - visited + {start}, visited' - before;
          assert visitedOut - visited + {start} == explored + explored';
          if found' {
            assert visited' - before <= visitedOut - visited;
            forall i, j | 0 <= i < solvedPath.Length0 && 0 <= j < solvedPath.Length1
              ensures solvedPath[i, j] == Marked(path', visitedOut - visited + {start}, Slot(i, j), old(solvedPath[i, j]))
            {
              assert old@BeforeCall(solvedPath[i, j]) == Marked([start], explored, Slot(i, j), old(solvedPath[i, j]));
              MarkedAfterSuccess(start, path', explored, explored', Slot(i, j), old(solvedPath[i, j]));
            }
            return true, visitedOut, path';
          }
          assert visitedOut - (visited + {start}) == (before - (visited + {start})) + explored';
          ClosedUnion(rows, cols, maze, before - (visited + {start}), before, explored', visitedOut);
          forall i, j | 0 <= i < solvedPath.Length0 && 0 <= j < solvedPath.Length1
            ensures solvedPath[i, j] == Marked([start], visitedOut - visited + {start}, Slot(i, j), old(solvedPath[i, j]))
          {
            assert old@BeforeCall(solvedPath[i, j]) == Marked([start], explored, Slot(i, j), old(solvedPath[i, j]));
            MarkedAfterFailure(start, explored, explored', Slot(i, j), old(solvedPath[i, j]));
          }
        }
        assert seenBefore <= visitedOut && (IsOpen(maze, start, neighbor) ==> neighbor in visitedOut);
        k := k + 1;
      }
      forall v, w | v in visitedOut - visited + {start} && InBounds(rows, cols, w) && Adjacent(v, w) && IsOpen(maze, v, w)
        ensures w in visitedOut
      {
        if v == start {
          NeighborStepInBounds(rows, cols, start, w);
          assert w in neighbors;
          var m :| 0 <= m < |neighbors| && neighbors[m] == w;
        }
      }
      solvedPath[2 * start.row + 1, 2 * start.col + 1] := false;
      return false, visitedOut, [];
    }

    /** One pass of the search loop from `start`, whose slot is marked:
        search on from the unvisited `neighbor` behind an open wall, and on
        success mark that wall and put `start` in front of the path found. */
    method Explore(start: Cell, neighbor: Cell, finish: Cell, visited: set<Cell>)
        returns (found: bool, visitedOut: set<Cell>, ghost path: seq<Cell>)
      requires Valid() && InBounds(rows, cols, start) && InBounds(rows, cols, neighbor)
      requires Adjacent(start, neighbor) && IsOpen(maze, start, neighbor)
      requires start in visited && neighbor !in visited
      requires solvedPath[2 * start.row + 1, 2 * start.col + 1]
      modifies solvedPath
      decreases Outside(rows, cols, visited + {neighbor}), 2
      ensures visited + {neighbor} <= visitedOut
      ensures found ==> PathFound(maze, rows, cols, path, start, finish, visitedOut - visited)
      ensures found ==> |path| >= 2 && path[1] == neighbor
      ensures !found ==> && path == []
                         && finish !in visitedOut - visited
                         && ClosedUnderOpenMoves(rows, cols, maze, visitedOut - visited, visitedOut)
      ensures forall i, j {:trigger solvedPath[i, j]} :: 0 <= i < solvedPath.Length0 && 0 <= j < solvedPath.Length1 ==>
                solvedPath[i, j] == Marked(path, visitedOut - visited, Slot(i, j), old(solvedPath[i, j]))
    {
      ghost var path';
      found, visitedOut, path' := Solve(neighbor, finish, visited);
      assert visitedOut - visited + {neighbor} == visitedOut - visited;
      if !found {
        return false, visitedOut, [];
      }
      label AfterCall:
      BetweenAdjacent(rows, cols, start, neighbor);
      solvedPath[start.row + 1 + neighbor.row, start.col + 1 + neighbor.col] := true;
      ConsPath(maze, rows, cols, start, neighbor, path', finish, visitedOut - visited, visitedOut - visited);
      forall i, j | 0 <= i < solvedPath.Length0 && 0 <= j < solvedPath.Length1
        ensures solvedPath[i, j] == Marked([start] + path', visitedOut - visited, Slot(i, j), old(solvedPath[i, j]))
      {
        if i == start.row + 1 + neighbor.row && j == start.col + 1 + neighbor.col {
          assert Slot(i, j) == Between(start, neighbor);
        } else {
          assert Slot(i, j) != Between(start, neighbor) && solvedPath[i, j] == old@AfterCall(solvedPath[i, j]);
        }
        MarkedStep(start, neighbor, path', visitedOut - visited, Slot(i, j), old(solvedPath[i, j]));
      }
      path := [start] + path';
    }

    /** The entry point of the search: a missing start is the top-left cell,
        a missing finish the bottom-right cell, and a missing visited set the
        empty set. */
    method SolveFrom(start: Option<Cell>, finish: Option<Cell>, visited: Option<set<Cell>>)
        returns (found: bool, visitedOut: set<Cell>, ghost path: seq<Cell>)
      requires Valid() && InBounds(rows, cols, start.GetOr(Cell(0, 0)))
      modifies solvedPath
      ensures var s, f, v := start.GetOr(Cell(0, 0)), finish.GetOr(Cell(rows - 1, cols - 1)), visited.GetOr({});
              && v + {s} <= visitedOut
              && (s == f ==> found && path == [s])
              && (found ==> PathFound(maze, rows, cols, path, s, f, visitedOut - v))
              && (!found ==> path == [] && f !in visitedOut - v + {s}
                             && ClosedUnderOpenMoves(rows, cols, maze, visitedOut - v + {s}, visitedOut))
              && forall i, j {:trigger solvedPath[i, j]} :: 0 <= i < solvedPath.Length0 && 0 <= j < solvedPath.Length1 ==>
                   solvedPath[i, j] == Marked(path, visitedOut - v + {s}, Slot(i, j), old(solvedPath[i, j]))
    {
      found, visitedOut, path := Solve(start.GetOr(Cell(0, 0)), finish.GetOr(Cell(rows - 1, cols - 1)), visited.GetOr({}));
    }

    /** Carving a maze and then solving it from the top-left to the
        bottom-right cell always succeeds: the carved walls join every cell
        to every other, so the search cannot exhaust its reachable cells
        without meeting the finish. */
    method GenerateAndSolve() returns (found: bool, ghost path: seq<Cell>)
      requires Valid() && rows >= 1 && cols >= 1
      requires forall i, j :: 0 <= i < solvedPath.Length0 && 0 <= j < solvedPath.Length1 ==> !solvedPath[i, j]
      modifies maze, solvedPath
      ensures found
      ensures PathFound(maze, rows, cols, path, Cell(0, 0), Cell(rows - 1, cols - 1), AllCells(rows, cols))
      ensures forall i, j {:trigger solvedPath[i, j]} :: 0 <= i < solvedPath.Length0 && 0 <= j < solvedPath.Length1 ==>
                solvedPath[i, j] == (Slot(i, j) in PathSlots(path))
    {
      var start, finish := Cell(0, 0), Cell(rows - 1, cols - 1);
      ghost var tree := Generate();
      ghost var parent, depth := TreeWitness(AllCells(rows, cols), finish, tree);
      assert TreeOpen(maze, tree);
      var visitedOut;
      found, visitedOut, path := Solve(start, finish, {});
      if !found {
        assert visitedOut - {} + {start} == visitedOut;
        SpanningTreeConnects(rows, cols, finish, parent, depth, tree, maze, visitedOut, start, finish);
        assert false;
      }
      forall k | 1 <= k < |path| ensures path[k] in AllCells(rows, cols) {
        assert InBounds(rows, cols, path[k]);
      }
    }
  }
}

=== FILE: spanning.dfy ===
/**
 Spanning trees over the cells of a maze, described by parent pointers: every
 cell but the root has a parent next to it, one step closer to the root, and
 the carved walls are exactly the walls between cells and their parents.
 */
module Spanning {
  import opened Grid

  /** `tree` is the set of walls of a tree over `cells` rooted at `root`. */
  ghost predicate RootedTree(cells: set<Cell>, root: Cell, parent: map<Cell, Cell>,
                             depth: map<Cell, nat>, tree: set<Slot>)
  {
    && root in cells
    && parent.Keys == cells - {root}
    && depth.Keys == cells
    && (forall v {:trigger Between(v, parent[v])} :: v in parent ==>
          && parent[v] in cells
          && Adjacent(v, parent[v])
          && depth[parent[v]] < depth[v]
          && Between(v, parent[v]) in tree)
    && (forall s :: s in tree ==> exists v :: v in parent && s == Between(v, parent[v]))
  }

  /** Attaching a new cell `next` below a tree cell `cur` carves a wall not yet
      in the tree and keeps a rooted tree. */
  lemma ExtendTree(cells: set<Cell>, root: Cell, parent: map<Cell, Cell>,
                   depth: map<Cell, nat>, tree: set<Slot>, cur: Cell, next: Cell)
    requires RootedTree(cells, root, parent, depth, tree)
    requires cur in cells && next !in cells && Adjacent(cur, next)
    ensures Between(cur, next) !in tree
    ensures RootedTree(cells + {next}, root, parent[next := cur],
                       depth[next := depth[cur] + 1], tree + {Between(cur, next)})
  {
    BetweenAdjacent(0, 0, cur, next);
    if Between(cur, next) in tree {
      var v :| v in parent && Between(cur, next) == Between(v, parent[v]);
      BetweenInjective(cur, next, v, parent[v]);
    }
    var parent', tree' := parent[next := cur], tree + {Between(cur, next)};
    forall s | s in tree' ensures exists v :: v in parent' && s == Between(v, parent'[v]) {
      if s in tree {
        var v :| v in parent && s == Between(v, parent[v]);
        assert v in parent' && parent'[v] == parent[v];
      } else {
        assert next in parent' && s == Between(next, parent'[next]);
      }
    }
  }

  /** The walls of `tree` are open in `maze`. */
  ghost predicate TreeOpen(maze: array2<bool>, tree: set<Slot>)
    reads maze
  {
    forall s {:trigger s in tree} :: s in tree ==> 0 <= s.i < maze.Length0 && 0 <= s.j < maze.Length1 && !maze[s.i, s.j]
  }

  /** Every in-grid neighbour of a cell of `from` behind an open wall is in `s`. */
  ghost predicate ClosedUnderOpenMoves(rows: int, cols: int, maze: array2<bool>,
                                       from: set<Cell>, s: set<Cell>)
    reads maze
  {
    forall v, w :: v in from && InBounds(rows, cols, w) && Adjacent(v, w) && IsOpen(maze, v, w) ==> w in s
  }

  /** Joining two sets of cells closed under open moves into `sa` and `s`,
      where `sa` lies within `s`, gives a set closed under open moves into `s`. */
  lemma ClosedUnion(rows: int, cols: int, maze: array2<bool>, a: set<Cell>, sa: set<Cell>, b: set<Cell>, s: set<Cell>)
    requires ClosedUnderOpenMoves(rows, cols, maze, a, sa) && sa <= s
    requires ClosedUnderOpenMoves(rows, cols, maze, b, s)
    ensures ClosedUnderOpenMoves(rows, cols, maze, a + b, s)
  {
  }

  lemma {:induction false} ReachesRoot(rows: int, cols: int, root: Cell, parent: map<Cell, Cell>,
                                       depth: map<Cell, nat>, tree: set<Slot>,
                                       maze: array2<bool>, s: set<Cell>, v: Cell)
    requires RootedTree(AllCells(rows, cols), root, parent, depth, tree)
    requires TreeOpen(maze, tree) && ClosedUnderOpenMoves(rows, cols, maze, s, s)
    requires v in s && InBounds(rows, cols, v)
    ensures root in s
    decreases depth[v]
  {
    if v != root {
      var p := parent[v];
      assert Between(v, p) in tree;
      assert InBounds(rows, cols, p) && Adjacent(v, p);
      assert IsOpen(maze, v, p);
      ReachesRoot(rows, cols, root, parent, depth, tree, maze, s, p);
    }
  }

  lemma {:induction false} ReachedFromRoot(rows: int, cols: int, root: Cell, parent: map<Cell, Cell>,
                                           depth: map<Cell, nat>, tree: set<Slot>,
                                           maze: array2<bool>, s: set<Cell>, v: Cell)
    requires RootedTree(AllCells(rows, cols), root, parent, depth, tree)
    requires TreeOpen(maze, tree) && ClosedUnderOpenMoves(rows, cols, maze, s, s)
    requires root in s && InBounds(rows, cols, v)
    ensures v in s
    decreases depth[v]
  {
    if v != root {
      var p := parent[v];
      assert Between(v, p) in tree;
      ReachedFromRoot(rows, cols, root, parent, depth, tree, maze, s, p);
      BetweenAdjacent(rows, cols, v, p);
      assert Adjacent(p, v);
      assert IsOpen(maze, p, v);
    }
  }

  /** When the walls of a spanning tree are open, any set of cells that is
      closed under moves through open walls and holds one cell holds them all:
      every cell is reachable from every other. */
  lemma SpanningTreeConnects(rows: int, cols: int, root: Cell, parent: map<Cell, Cell>,
                             depth: map<Cell, nat>, tree: set<Slot>,
                             maze: array2<bool>, s: set<Cell>, start: Cell, finish: Cell)
    requires RootedTree(AllCells(rows, cols), root, parent, depth, tree)
    requires TreeOpen(maze, tree)
    requires InBounds(rows, cols, start) && InBounds(rows, cols, finish)
    ensures start in s && ClosedUnderOpenMoves(rows, cols, maze, s, s) ==> finish in s
  {
    if start in s && ClosedUnderOpenMoves(rows, cols, maze, s, s) {
      ReachesRoot(rows, cols, root, parent, depth, tree, maze, s, start);
      ReachedFromRoot(rows, cols, root, parent, depth, tree, maze, s, finish);
    }
  }

  /** `tree` is the set of walls of some tree over `cells` rooted at `root`. */
  ghost predicate IsTreeOver(cells: set<Cell>, root: Cell, tree: set<Slot>)
  {
    exists parent: map<Cell, Cell>, depth: map<Cell, nat> :: RootedTree(cells, root, parent, depth, tree)
  }

  /** The parent and depth maps of a tree over `cells`. */
  lemma TreeWitness(cells: set<Cell>, root: Cell, tree: set<Slot>)
      returns (parent: map<Cell, Cell>, depth: map<Cell, nat>)
    requires IsTreeOver(cells, root, tree)
    ensures RootedTree(cells, root, parent, depth, tree)
  {
    parent, depth :| RootedTree(cells, root, parent, depth, tree);
  }

  /** Attaching a new cell below a cell of a tree keeps a tree, one wall larger. */
  lemma ExtendTreeOver(cells: set<Cell>, root: Cell, tree: set<Slot>, cur: Cell, next: Cell)
    requires IsTreeOver(cells, root, tree)
    requires cur in cells && next !in cells && Adjacent(cur, next)
    ensures Between(cur, next) !in tree
    ensures IsTreeOver(cells + {next}, root, tree + {Between(cur, next)})
    ensures |cells + {next}| == |cells| + 1 && |tree + {Between(cur, next)}| == |tree| + 1
  {
    var parent, depth := TreeWitness(cells, root, tree);
    ExtendTree(cells, root, parent, depth, tree, cur, next);
  }

  /** The state of the depth-first carving walk: the current cell `cur`, the
      stack of cells to back up to, the cells seen so far and the walls carved
      between them. Every seen cell is current, stacked, or has no unseen
      neighbour, and the carved walls form a tree over the seen cells. */
  ghost predicate WalkInv(rows: int, cols: int, cur: Cell, stack: seq<Cell>, seen: set<Cell>, tree: set<Slot>)
  {
    && rows >= 1 && cols >= 1
    && InBounds(rows, cols, cur) && cur in seen && seen <= AllCells(rows, cols)
    && (forall v :: v in stack ==> v in seen)
    && (forall v {:trigger Finished(rows, cols, v, seen)} :: v in seen ==> v == cur || v in stack || Finished(rows, cols, v, seen))
    && IsTreeOver(seen, Cell(rows - 1, cols - 1), tree)
    && |tree| == |seen| - 1
  }

  /** The walk starts at the bottom-right cell with nothing carved. */
  lemma WalkStart(rows: int, cols: int)
    requires rows >= 1 && cols >= 1
    ensures WalkInv(rows, cols, Cell(rows - 1, cols - 1), [], {Cell(rows - 1, cols - 1)}, {})
  {
    var root := Cell(rows - 1, cols - 1);
    assert RootedTree({root}, root, map[], map[root := 0], {});
  }

  /** A cell with no unseen neighbour keeps none as more cells are seen. */
  lemma FinishedGrows(rows: int, cols: int, v: Cell, seen: set<Cell>, seen': set<Cell>)
    requires Finished(rows, cols, v, seen) && seen <= seen'
    ensures Finished(rows, cols, v, seen')
  {
  }

  /** Moving forward: push the current cell, carve the wall to an unseen
      neighbour and make that neighbour current. The carved wall is new. */
  lemma WalkForward(rows: int, cols: int, cur: Cell, stack: seq<Cell>, seen: set<Cell>, tree: set<Slot>, next: Cell)
    requires WalkInv(rows, cols, cur, stack, seen, tree)
    requires InBounds(rows, cols, next) && Adjacent(cur, next) && next !in seen
    ensures Between(cur, next) !in tree && |seen + {next}| == |seen| + 1
    ensures WalkInv(rows, cols, next, stack + [cur], seen + {next}, tree + {Between(cur, next)})
  {
    ExtendTreeOver(seen, Cell(rows - 1, cols - 1), tree, cur, next);
    var seen' := seen + {next};
    forall v | v in seen'
      ensures v == next || v in stack + [cur] || Finished(rows, cols, v, seen')
    {
      if v != next && v != cur && v !in stack {
        FinishedGrows(rows, cols, v, seen, seen');
      }
    }
  }

  /** Backing up: once the current cell has no unseen neighbour, the top of
      the stack becomes current. */
  lemma WalkBack(rows: int, cols: int, cur: Cell, stack: seq<Cell>, seen: set<Cell>, tree: set<Slot>)
    requires WalkInv(rows, cols, cur, stack, seen, tree)
    requires stack != [] && Finished(rows, cols, cur, seen)
    ensures WalkInv(rows, cols, stack[|stack| - 1], stack[..|stack| - 1], seen, tree)
  {
    var top, rest := stack[|stack| - 1], stack[..|stack| - 1];
    assert top in stack;
    forall v | v in seen ensures v == top || v in rest || Finished(rows, cols, v, seen) {
      if v in stack && v != top {
        var k :| 0 <= k < |stack| && stack[k] == v;
        assert rest[k] == v;
      }
    }
  }

  /** The walk is never stuck with an empty stack while unseen cells remain:
      the fallback jump to a random cell is never taken. */
  lemma WalkNeverStuck(rows: int, cols: int, cur: Cell, stack: seq<Cell>, seen: set<Cell>, tree: set<Slot>)
    requires WalkInv(rows, cols, cur, stack, seen, tree)
    requires |seen| < |AllCells(rows, cols)|
    ensures stack != [] || !Finished(rows, cols, cur, seen)
  {
    NotAllFinished(rows, cols, seen);
  }

  /** When every cell is seen, the carved walls form a spanning tree with one
      wall fewer than there are cells, and each of them lies strictly inside
      the doubled grid between two cells. */
  lemma WalkDone(rows: int, cols: int, cur: Cell, stack: seq<Cell>, seen: set<Cell>, tree: set<Slot>)
    requires WalkInv(rows, cols, cur, stack, seen, tree)
    requires |seen| == |AllCells(rows, cols)|
    ensures seen == AllCells(rows, cols)
    ensures IsTreeOver(AllCells(rows, cols), Cell(rows - 1, cols - 1), tree)
    ensures |tree| == |AllCells(rows, cols)| - 1
    ensures forall s {:trigger s in tree} :: s in tree ==> IsWallSlot(s) && 1 <= s.i <= 2 * rows - 1 && 1 <= s.j <= 2 * cols - 1
  {
    SubsetCard(seen, AllCells(rows, cols));
    var parent, depth := TreeWitness(seen, Cell(rows - 1, cols - 1), tree);
    forall s | s in tree ensures IsWallSlot(s) && 1 <= s.i <= 2 * rows - 1 && 1 <= s.j <= 2 * cols - 1 {
      var v :| v in parent && s == Between(v, parent[v]);
      BetweenAdjacent(rows, cols, v, parent[v]);
    }
  }
}
